=== FILE: README.md ===
# Mars rover timelapse — a Dafny model of the pipeline's decisions

`make_timelapse.py` builds a timelapse video from a rover camera's photos. It
asks the Mars photo API for the photo listing of every sol (mission day) in a
range. It downloads each photo into a `temp` directory, unless the photo is
cached there already. It keeps the images whose aspect ratio is strictly above a
threshold, resizes them to the truncated mean width and height of the kept
images, and writes them as the frames of an `.avi` video. At the end it deletes
the `temp` directory unless asked to keep it.

This project models the decisions of that pipeline as pure Dafny functions and
short methods over immutable values:

- `Outcomes` — `Result<T>` and `Failure`. `Failure` has one case for each
  exception of the program that the model covers: the range `assert`, the
  missing key, a listing that is not a 200, and a file that cannot be opened
  or removed. The program catches none of them. Network, JSON and image
  decoding errors are not modelled (see "Left out").
- `Naming` — Python's `str(int)` and its inverse parser. The cache file name
  `{rover}-{camera}-{id}.jpg`, the `_resized_` copy name, the video name
  `{rover}-{camera}-SOL{start}-{end}-{fps}fps-{ratio}` and the `output/….avi`
  path. Lemmas state what each name determines.
- `Frames` — the aspect-ratio filter (`Kept`, with its positions
  `KeptIndices`), the selection loop (`SelectFrames`) and the truncated mean
  (`TruncatedMean`).
- `Store` — the `temp` directory, which is absent or holds a map from file
  name to image size. `SaveImage` models `save_image`.
- `Sols` — API key resolution, the photo listing of one sol, and
  `process_sol`.
- `Video` — `make_video`: probing the files, selecting, resizing and writing
  the frames.
- `Run` — `main`. `Sweep` is a reference definition of the sol loop. Lemmas
  describe how it splits and how it fails. `CollectSols`, `Finish` and
  `RunTimelapse` model the loop, the tail of `main`, and `main` as a whole.
- `Scenarios` — small inputs: a strict threshold, a truncated mean, a
  three-image selection, one cache name, and whole runs over one sol that
  lists one photo, with a failed and with a successful download.

The outside world is passed in as parameters:

- the listing API is a function `api: Query -> Listing`, where a `Listing` has
  a status, a body and the photos;
- image downloads are a function `fetch: string -> Download`, where a
  `Download` has a status and the size of the JPEG;
- the process environment is a `map<string, string>`;
- the `temp` directory is a `TempDir` value, threaded through the calls.

### Behaviour worth knowing

- **A failed download is not skipped.** `save_image` returns the file name even
  when the download answers something other than 200, and it stores nothing
  (make_timelapse.py:91-97). `process_sol` therefore lists that name. When
  every listing succeeds, `Image.open` in `make_video` raises on the first
  collected name that was neither cached before nor downloaded, and the whole
  run fails with `FileNotFound("temp/<that name>")`. One might expect the photo
  to be dropped instead. `Store.FailedDownloadLeavesNoFile`,
  `Run.RunTimelapse` and `Scenarios.FailedDownloadFailsRun` state what the
  code does.
- **The range check is an `assert`.** A reversed sol range fails with
  `SolRangeReversed` before anything else happens. It is not a precondition.
- **Removing a missing `temp` directory fails.** When the range lists no
  photo at all, `temp` did not exist before and `keep_temp` is not set,
  `shutil.rmtree` raises, and
  the run fails with `FileNotFound("temp")`. One might expect the cleanup to
  be harmless. (If photos were listed but none was downloaded, `Image.open`
  raises first, as above.) `Run.Finish` and `Run.RunTimelapse` state both.
- **An exception skips the cleanup.** When any step raises, the `temp`
  directory is kept, whatever `keep_temp` says. A listing failure at some sol
  leaves in it every file downloaded for the sols before. `Run.CollectSols`,
  `Run.Finish` and `Run.RunTimelapse` return that directory, on failure as on
  success, so a later run can start from it.
- **An empty key from the environment is used as is.** An empty explicit key
  falls through to `NASA_API_KEY`. If that variable is set, its value is used
  even when it is empty.
- **Names are joined with '-' without escaping.** Rover `a-b` with camera `c`
  gives the same cache and video names as rover `a` with camera `b-c`
  (`Naming.DashInRoverCollides`).

## Model

| member | source | states |
|---|---|---|
| `Frames.WideIsStrictRatio` | make_timelapse.py:30 | The cross-multiplied test `Wide` holds exactly when width/height is strictly greater than the threshold, as real numbers. |
| `Frames.Kept` | make_timelapse.py:27-33 | Every image kept is an input image whose ratio is above the threshold, and no more images are kept than were given. |
| `Frames.KeptIsOrderedFilter` | make_timelapse.py:27-33 | The kept images are an order-preserving subsequence of the input. The k-th kept image sits at the k-th of a strictly increasing list of positions. A position is on that list iff the image there passes the strict threshold, so an image whose ratio equals the threshold is dropped. |
| `Frames.KeptIndicesExact` | make_timelapse.py:30-31 | An input position is selected iff its image's ratio is strictly above the threshold. |
| `Frames.KeptIndicesIncreasing` | make_timelapse.py:27-31 | Selected positions are in range and strictly increasing. |
| `Frames.KeptIndicesLocate` | make_timelapse.py:27-33 | There is one selected position per kept image, and the image at that position is the kept image. |
| `Frames.SelectFrames` | make_timelapse.py:24-33 | The names, widths and heights lists have the same length. Entry k of the three lists is the name and size of the k-th kept image. |
| `Frames.TruncatedMean` | make_timelapse.py:42-43 | The mean frame dimension m is the floor of the sum over the count (m·n ≤ sum < (m+1)·n). It lies between the smallest and the largest surviving value, so it is at least 1. |
| `Naming.NatDecimalRoundTrip` | make_timelapse.py:83 | Parsing the decimal rendering of a natural number gives the number back. |
| `Naming.IntDecimalRoundTrip` | make_timelapse.py:83 | Parsing `str(n)`, sign included, gives n back. |
| `Naming.IntDecimalInjective` | make_timelapse.py:182 | Two integers render to the same text iff they are equal. |
| `Naming.DashOnlyLeading` | make_timelapse.py:182 | A rendered integer contains no '-' except a leading minus sign. |
| `Naming.DashSplit` | make_timelapse.py:182 | A rendered integer followed by '-' splits back uniquely into the integer and the rest. |
| `Naming.CacheFileNameDeterminesId` | make_timelapse.py:83 | For a fixed rover and camera, two photos share a cache file name iff they have the same id. |
| `Naming.ResizedNameFresh` | make_timelapse.py:48 | `_resized_` + name never equals the name itself, and distinct names get distinct resized names. |
| `Naming.VideoNameDeterminesSolRange` | make_timelapse.py:182 | For a fixed rover and camera, two runs get the same video name iff they cover the same sol range and their `{fps}fps-{ratio}` suffix is the same text. |
| `Naming.DashInRoverCollides` | make_timelapse.py:83 | Moving a '-'-separated part from the rover to the camera leaves both the cache name and the video name (line 182) unchanged, so the names do not identify rover and camera. |
| `Store.SaveImage` | make_timelapse.py:76-97 | The result is always `{rover}-{camera}-{id}.jpg`, whatever the HTTP status. A GET is issued iff the download is forced or the file is not cached. The file exists afterwards iff it existed before or the GET answered 200, and then it has the downloaded size. Every other file keeps its presence and its size. |
| `Store.SaveImageIdempotent` | make_timelapse.py:86-88 | Once the photo is cached, saving it again without forcing issues no request. It returns the same name and leaves the directory unchanged. |
| `Store.FailedDownloadLeavesNoFile` | make_timelapse.py:91-97 | A failed download of an uncached photo still returns its name but creates no file. |
| `Sols.ResolveKey` | make_timelapse.py:108-113 | Resolution fails iff the explicit key is empty and NASA_API_KEY is unset. A non-empty explicit key wins. Otherwise the environment value is used. |
| `Sols.FetchPhotos` | make_timelapse.py:108-126 | A missing key fails before any request. The listing is queried with the resolved key. A non-200 status fails with the status and the body. Otherwise the result is the listing's photos. |
| `Sols.PhotoFilesDistinct` | make_timelapse.py:138-147 | A listing whose photo ids are pairwise distinct yields pairwise distinct cache file names. |
| `Sols.SaveAll` | make_timelapse.py:138-147 | The result has one name per photo, in response order, and the k-th name is the cache name of the k-th photo. No cached file is lost. With no photos, the directory is unchanged. |
| `Sols.SaveAllCache` | make_timelapse.py:87-97 | After the loop of line 139, a file is cached iff it was before or a photo saved under its name downloaded with status 200. Only listed names are added. The directory exists afterwards iff it did before or it holds a file. |
| `Sols.SaveAllSizes` | make_timelapse.py:87-97 | Every cached file keeps its old content or holds what some 200 download of a photo saved under its name carried. Without `force_download`, a file cached before is never replaced. |
| `Sols.ProcessSol` | make_timelapse.py:100-147 | A missing key fails with `MissingApiKey`. Otherwise the result is Ok iff the listing status is 200, a failure carries that status and body, and on success the file list is exactly the photos' cache names in response order. A file is cached afterwards iff it was before or a listed photo saved under its name downloaded with 200, with that download's content. Without `force_download` cached files keep their content. |
| `Video.Probe` | make_timelapse.py:27-29 | Probing succeeds iff every collected file exists in `temp`, and then yields each file's size in order. Otherwise it fails with the path of the first missing file. |
| `Video.ResizeAll` | make_timelapse.py:44-48 | Afterwards the directory holds exactly its old files plus the `_resized_` copies. Every copy has the target size. Every other file keeps its size. |
| `Video.WriteFrames` | make_timelapse.py:66-67 | One frame per resized copy, in order, each read back with the common size. |
| `Video.MakeVideo` | make_timelapse.py:17-73 | A missing file fails, with nothing written. If no image passes the filter, the outcome is NoImagesFound and nothing is touched. Otherwise the frame size is the truncated mean width and height of the kept images only. There is one frame per kept image, in selection order, named `_resized_` + file, written to `output/{name}.avi`. Only the resized copies change in `temp`. |
| `Run.SweepConcat` | make_timelapse.py:164-177 | Sweeping lo..hi equals sweeping lo..mid and then mid+1..hi. The first failure wins; on success the name lists are concatenated. |
| `Run.SweepSucceedsIff` | make_timelapse.py:164-177 | The sweep succeeds iff the listing of every sol in the range succeeds. |
| `Run.SweepFirstFailure` | make_timelapse.py:164-177 | A failed sweep carries the failure of some sol in range, and every earlier sol succeeded. |
| `Run.SweptCacheStep` | make_timelapse.py:168-177 | One more successful `process_sol` extends the cache description (`SweptCache`) from sols lo..n-1 to lo..n. |
| `Run.SweepExtendOk` | make_timelapse.py:168-177 | A successful `process_sol` for the next sol extends a successful sweep by exactly that sol's names. |
| `Run.SweepStopsAt` | make_timelapse.py:168-177 | A failing `process_sol` inside the range ends the whole sweep with its failure, which is that sol's listing failure. |
| `Run.CollectSols` | make_timelapse.py:164-177 | The loop visits every sol from start to end, in ascending order. It succeeds iff the sweep does, stops with the sweep's failure, and collects exactly the sweep's concatenated names. Afterwards a file is cached iff it was before or some sol downloaded it with 200. Only collected names are added, each file keeps its old content or a downloaded one, and without `force_download` nothing cached changes. If nothing was collected, the directory is unchanged. On failure the returned directory is what the sols before the failing one left, described the same way over that shorter range; with no key it is the starting directory. |
| `Run.ProbeByPresence` | make_timelapse.py:26-28 | If the cache holds exactly the files a predicate describes, opening the collected files succeeds iff each satisfies it, and otherwise fails on the first that does not. |
| `Run.SweptCachePresent` | make_timelapse.py:92-96 | After a sweep, the `temp` directory exists iff it did before or some sol downloaded a file. |
| `Run.Finish` | make_timelapse.py:179-189 | A `make_video` failure propagates, and the returned directory is the staged one, not removed. Otherwise the run fails iff `temp` is to be removed but was never created. On success (`Finished`) every collected file existed, and NoImagesFound means nothing passed the filter. A written video has the given fps, the truncated-mean size of the kept images, and one frame per kept image in order. `temp` is removed iff `keep_temp` is false. A kept `temp` gains exactly the resized copies at the frame size, and its other files keep their content. |
| `Run.SweptProbe` | make_timelapse.py:26-28 | After a sweep, make_video opens every collected file iff each was cached before or downloaded by some sol, and otherwise fails on the first that was neither. |
| `Run.RunTimelapse` | make_timelapse.py:150-189 | A reversed range fails with `SolRangeReversed`. A missing key fails with `MissingApiKey`. A listing failure ends the run with the sweep's failure. A collected name that is neither cached before nor downloaded with 200 ends the run with `FileNotFound("temp/<name>")` for the first such name. When every name is available, the run succeeds iff `keep_temp` is set, or `temp` existed before, or some sol downloaded a file with 200. On success the images are the in-order concatenation over the range, and the staged cache is described by `SweptCache`. The video is NoImagesFound iff nothing passes the filter; otherwise it is `output/{rover}-{camera}-SOL{start}-{end}-{fps}fps-{ratio}.avi` at the given fps, with the truncated-mean frame size, and frame k is the resized copy of the k-th kept image. `temp` is removed iff `keep_temp` is false; a kept `temp` gains exactly the resized copies at the frame size. The returned directory is the starting one after a reversed range or a missing key. After a listing failure at sol s it is what sols start..s-1 left. After a failure in make_video or in the removal it is the directory the whole sweep left. |
| `Scenarios.ThresholdIsStrict` | make_timelapse.py:30 | Ratio exactly 2 against threshold 2 is dropped; 2.01 is kept. |
| `Scenarios.MeanTruncates` | make_timelapse.py:42 | Widths 101 and 100 give a mean width of 100. |
| `Scenarios.ThreeImages` | make_timelapse.py:27-43 | With ratios 1.0, 2.5 and 3.0 and threshold 2, the last two are kept and the frame size is 275×100. |
| `Scenarios.NameOfPhoto` | make_timelapse.py:83 | Photo 42 of curiosity's NAVCAM_LEFT is cached as `curiosity-NAVCAM_LEFT-42.jpg`. |
| `Scenarios.OnePhotoSweep` | make_timelapse.py:164-177 | A one-sol sweep whose listing holds one photo collects that photo's name. The sweep has downloaded the name iff the download answered 200, and then with the downloaded size. No other name counts as downloaded. |
| `Scenarios.FailedDownloadFailsRun` | make_timelapse.py:91-97 | One sol listing one photo whose download fails, starting without `temp`: the run fails with `FileNotFound("temp/<name>")` and leaves no `temp` directory. |
| `Scenarios.OnePhotoStaged` | make_timelapse.py:91-97 | After that sweep with a 200 download, the photo is in `temp` with the downloaded size. |
| `Scenarios.OneImageFrame` | make_timelapse.py:27-43 | One staged image above the threshold is kept and gives a frame size equal to its own size. |
| `Scenarios.DownloadedPhotoMakesVideo` | make_timelapse.py:150-189 | The same run with a 200 download of a wide enough image succeeds, removes `temp`, and writes a video at the given fps whose one frame is the resized photo at the image's size. |

## Left out

- HTTP and JSON (`requests.get`, `r.json()["photos"]`). The listing and the
  downloads are the oracle functions `api` and `fetch`. The same URL always
  gives the same answer. A malformed body or a missing `photos` key is not
  modelled.
- The rate-limit header (make_timelapse.py:128-134) and all `print` output.
  The warnings do not affect the result. But `int()` of a non-integer
  `X-RateLimit-Remaining` header raises `ValueError`, which ends the run after
  a 200 listing. A `Listing` carries no headers, so that failure is not
  modelled.
- Network and decoding errors: a `requests` exception, a body that is not
  JSON, a photo without `id` or `img_src`, or a downloaded file that PIL
  cannot open. `Failure` has no case for them.
- Image decoding, Lanczos resampling, JPEG quality 95, the DIVX codec, and
  `cv2.destroyAllWindows`. An image is its `(width, height)`. Resizing yields
  an image of the requested size. The video is its path, fps text, frame size
  and frame list. A downloaded file that is not a decodable image is not
  modelled.
- Creating the `output` directory (`os.makedirs`). The video is identified by
  its path only.
- Command-line parsing and `load_dotenv` (make_timelapse.py:10, 195-267). The
  rover allow-list and the defaults live there. The environment is a plain
  map.
- Frames.WideIsStrictRatio: the threshold is an exact fraction, not an IEEE
  double. Rounding of `width/height` in floating point is not modelled.
- Frames.TruncatedMean: `int(sum / len)` is exact floor division. Float
  rounding for sums beyond 2^53 is not modelled. The sums are positive, so
  truncation and floor agree.
- The frame rate and the threshold appear in the video name as the text
  Python prints for them. Python's float formatting is not modelled.
- Image sizes are at least 1×1, so the zero-height `ZeroDivisionError` cannot
  occur.
- Python run with `-O` drops the `assert` on the sol range. That mode is not
  modelled.
- Paths inside `temp`. A file name is a flat key of the directory map. A '/'
  in the rover or the camera is not modelled. In the program such a name
  makes `save_image` write into a subdirectory of `temp`, and the
  `_resized_` copy (make_timelapse.py:48) then has no parent directory, so
  PIL raises. A rover that starts with '/' makes `os.path.join` at line 28
  ignore `temp`. For such names `Video.ResizeAll`, `Video.MakeVideo` and
  `Run.RunTimelapse` report a written video where the program fails.
- Naming.VideoNameDeterminesSolRange: uniqueness is stated for a fixed rover
  and camera only, because the '-' joins collide (`Naming.DashInRoverCollides`).
  The frame rate and threshold are compared as the text of the suffix
  `{fps}fps-{ratio}`, because Python's float printing is not modelled.
- Naming.CacheFileNameDeterminesId: uniqueness is stated for a fixed rover and
  camera only. A rover or camera containing '-' can collide with another pair:
  rover `a-b` with camera `c` gives the same names as rover `a` with camera
  `b-c`.

=== FILE: frames.dfy ===
/**
 * The frame-selection arithmetic of make_video: which images are wide enough
 * to become frames, in what order, and the common size every frame is
 * resized to.
 */
module Frames {

  /** Image dimensions are positive: a decoded JPEG is at least one pixel each way. */
  type Pos = n: int | n >= 1 witness 1

  datatype Size = Size(width: Pos, height: Pos)

  /** A file of the working directory with the size Image.open reports for it. */
  datatype ImageInfo = ImageInfo(file: string, size: Size)

  /**
   * The minimum aspect ratio as the exact fraction num/den, together with
   * the text Python prints for it (which only ever appears in the video name).
   */
  datatype AspectRatio = AspectRatio(num: int, den: Pos, text: string)

  /** width/height > num/den, cross-multiplied over the two positive denominators. */
  predicate Wide(s: Size, t: AspectRatio) {
    s.width * t.den > t.num * s.height
  }

  /** Wide is exactly the strict comparison of the two ratios as real numbers. */
  lemma WideIsStrictRatio(s: Size, t: AspectRatio)
    ensures Wide(s, t) <==> (s.width as real) / (s.height as real) > (t.num as real) / (t.den as real)
  {
  }

  /** The images whose aspect ratio is strictly above the threshold, in their original order. */
  function Kept(images: seq<ImageInfo>, t: AspectRatio): (r: seq<ImageInfo>)
    ensures |r| <= |images|
    ensures forall x :: x in r ==> x in images && Wide(x.size, t)
  {
    if |images| == 0 then []
    else
      var last := images[|images| - 1];
      Kept(images[..|images| - 1], t) + (if Wide(last.size, t) then [last] else [])
  }

  /** The positions of the kept images within the input. */
  function KeptIndices(images: seq<ImageInfo>, t: AspectRatio): seq<nat> {
    if |images| == 0 then []
    else
      var n := |images| - 1;
      KeptIndices(images[..n], t) + (if Wide(images[n].size, t) then [n] else [])
  }

  lemma {:induction false} KeptIndicesLocate(images: seq<ImageInfo>, t: AspectRatio)
    ensures |KeptIndices(images, t)| == |Kept(images, t)|
    ensures forall k :: 0 <= k < |KeptIndices(images, t)| ==>
              KeptIndices(images, t)[k] < |images| && images[KeptIndices(images, t)[k]] == Kept(images, t)[k]
  {
    if |images| > 0 {
      var n := |images| - 1;
      KeptIndicesLocate(images[..n], t);
      assert forall k :: 0 <= k < |KeptIndices(images[..n], t)| ==>
               images[..n][KeptIndices(images[..n], t)[k]] == images[KeptIndices(images[..n], t)[k]];
    }
  }

  lemma {:induction false} KeptIndicesIncreasing(images: seq<ImageInfo>, t: AspectRatio)
    ensures forall k :: 0 <= k < |KeptIndices(images, t)| ==> KeptIndices(images, t)[k] < |images|
    ensures forall k, l :: 0 <= k < l < |KeptIndices(images, t)| ==> KeptIndices(images, t)[k] < KeptIndices(images, t)[l]
  {
    if |images| > 0 {
      var n := |images| - 1;
      KeptIndicesIncreasing(images[..n], t);
    }
  }

  lemma {:induction false} KeptIndicesExact(images: seq<ImageInfo>, t: AspectRatio)
    ensures forall i :: 0 <= i < |images| ==> (i in KeptIndices(images, t) <==> Wide(images[i].size, t))
  {
    if |images| > 0 {
      var n := |images| - 1;
      KeptIndicesExact(images[..n], t);
      KeptIndicesIncreasing(images[..n], t);
      assert forall i :: 0 <= i < n ==> images[..n][i] == images[i];
    }
  }

  /**
   * Kept is an order-preserving subsequence of its input that holds an image
   * exactly when its ratio is above the threshold: its k-th element sits at the
   * k-th of a strictly increasing list of positions, and a position is on that
   * list iff the image there is wide enough.
   */
  lemma KeptIsOrderedFilter(images: seq<ImageInfo>, t: AspectRatio)
    ensures var idx, r := KeptIndices(images, t), Kept(images, t);
      && |idx| == |r|
      && (forall k :: 0 <= k < |idx| ==> idx[k] < |images| && images[idx[k]] == r[k])
      && (forall k, l :: 0 <= k < l < |idx| ==> idx[k] < idx[l])
      && (forall i :: 0 <= i < |images| ==> (i in idx <==> Wide(images[i].size, t)))
  {
    KeptIndicesLocate(images, t);
    KeptIndicesIncreasing(images, t);
    KeptIndicesExact(images, t);
  }

  function Files(images: seq<ImageInfo>): seq<string> {
    seq(|images|, k requires 0 <= k < |images| => images[k].file)
  }

  function Widths(images: seq<ImageInfo>): seq<Pos> {
    seq(|images|, k requires 0 <= k < |images| => images[k].size.width)
  }

  function Heights(images: seq<ImageInfo>): seq<Pos> {
    seq(|images|, k requires 0 <= k < |images| => images[k].size.height)
  }

  /**
   * The selection loop of make_video: the names, widths and heights of the kept
   * images as three parallel lists, entry for entry.
   */
  method SelectFrames(all: seq<ImageInfo>, t: AspectRatio)
    returns (files: seq<string>, widths: seq<Pos>, heights: seq<Pos>)
    ensures |files| == |widths| == |heights| == |Kept(all, t)|
    ensures forall k :: 0 <= k < |files| ==> Kept(all, t)[k] == ImageInfo(files[k], Size(widths[k], heights[k]))
    ensures files == Files(Kept(all, t)) && widths == Widths(Kept(all, t)) && heights == Heights(Kept(all, t))
  {
    files, widths, heights := [], [], [];
    for i := 0 to |all|
      invariant |files| == |widths| == |heights| == |Kept(all[..i], t)|
      invariant forall k :: 0 <= k < |files| ==>
                  Kept(all[..i], t)[k] == ImageInfo(files[k], Size(widths[k], heights[k]))
    {
      var image := all[i];
      assert all[..i + 1][..i] == all[..i];
      assert Kept(all[..i + 1], t)
             == if Wide(image.size, t) then Kept(all[..i], t) + [image] else Kept(all[..i], t);
      if Wide(image.size, t) {
        files := files + [image.file];
        widths := widths + [image.size.width];
        heights := heights + [image.size.height];
      }
    }
    assert all[..|all|] == all;
  }

  function Sum(xs: seq<int>): int {
    if |xs| == 0 then 0 else Sum(xs[..|xs| - 1]) + xs[|xs| - 1]
  }

  function Min(xs: seq<int>): (m: int)
    requires |xs| > 0
    ensures m in xs
    ensures forall i :: 0 <= i < |xs| ==> m <= xs[i]
  {
    if |xs| == 1 then xs[0]
    else
      var m := Min(xs[..|xs| - 1]);
      if xs[|xs| - 1] < m then xs[|xs| - 1] else m
  }

  function Max(xs: seq<int>): (m: int)
    requires |xs| > 0
    ensures m in xs
    ensures forall i :: 0 <= i < |xs| ==> xs[i] <= m
  {
    if |xs| == 1 then xs[0]
    else
      var m := Max(xs[..|xs| - 1]);
      if xs[|xs| - 1] > m then xs[|xs| - 1] else m
  }

  lemma {:induction false} SumAtLeast(xs: seq<int>, lo: int)
    requires forall i :: 0 <= i < |xs| ==> lo <= xs[i]
    ensures |xs| * lo <= Sum(xs)
  {
    if |xs| > 0 {
      SumAtLeast(xs[..|xs| - 1], lo);
      assert (|xs| - 1) * lo + lo == |xs| * lo;
    }
  }

  lemma {:induction false} SumAtMost(xs: seq<int>, hi: int)
    requires forall i :: 0 <= i < |xs| ==> xs[i] <= hi
    ensures Sum(xs) <= |xs| * hi
  {
    if |xs| > 0 {
      SumAtMost(xs[..|xs| - 1], hi);
      assert (|xs| - 1) * hi + hi == |xs| * hi;
    }
  }

  /** Floor division of a total that lies between n*lo and n*hi lies between lo and hi. */
  lemma DivBetween(s: int, n: int, lo: int, hi: int)
    requires n > 0 && n * lo <= s && s <= n * hi
    ensures lo <= s / n && s / n <= hi
    ensures (s / n) * n <= s && s < (s / n + 1) * n
  {
    var q := s / n;
    assert s == n * q + s % n && 0 <= s % n && s % n < n;
    assert n * lo < n * (q + 1);
    assert n * q < n * (hi + 1);
    MulMonotone(n, lo, q + 1);
    MulMonotone(n, q, hi + 1);
  }

  lemma MulMonotone(n: int, a: int, b: int)
    requires n > 0 && n * a < n * b
    ensures a < b
  {
  }

  /**
   * `int(sum(xs) / len(xs))`: the truncated mean, which always lies between
   * the smallest and the largest of the values averaged.
   */
  function TruncatedMean(xs: seq<Pos>): (m: Pos)
    requires |xs| > 0
    ensures Min(xs) <= m && m <= Max(xs)
    ensures m * |xs| <= Sum(xs) && Sum(xs) < (m + 1) * |xs|
  {
    SumAtLeast(xs, Min(xs));
    SumAtMost(xs, Max(xs));
    DivBetween(Sum(xs), |xs|, Min(xs), Max(xs));
    Sum(xs) / |xs|
  }
}

=== FILE: naming.dfy ===
/**
 * The deterministic names the pipeline builds: the decimal rendering of
 * integers (as Python's `str` writes them), the cache file of a photo, the
 * resized copy of a frame, and the output video.
 */
module Naming {

  const TempDirectory := "temp"
  const OutputDirectory := "output"
  const ResizedPrefix := "_resized_"

  predicate IsDigit(c: char) {
    '0' <= c <= '9'
  }

  predicate AllDigits(s: string) {
    forall i :: 0 <= i < |s| ==> IsDigit(s[i])
  }

  function Digit(d: nat): (c: char)
    requires d < 10
    ensures IsDigit(c)
  {
    (48 + d) as char
  }

  function DigitValue(c: char): nat
    requires IsDigit(c)
  {
    c as int - 48
  }

  /** Decimal digits of `n`, most significant first, without leading zeros. */
  function NatDecimal(n: nat): (s: string)
    ensures |s| > 0 && AllDigits(s)
    ensures s[0] == '0' ==> n == 0
    decreases n
  {
    if n < 10 then [Digit(n)] else NatDecimal(n / 10) + [Digit(n % 10)]
  }

  /** The value of a string of decimal digits (the inverse of NatDecimal). */
  function DecimalValue(s: string): nat
    requires AllDigits(s)
  {
    if |s| == 0 then 0 else DecimalValue(s[..|s| - 1]) * 10 + DigitValue(s[|s| - 1])
  }

  lemma {:induction false} NatDecimalRoundTrip(n: nat)
    ensures DecimalValue(NatDecimal(n)) == n
    decreases n
  {
    if n >= 10 {
      var s := NatDecimal(n / 10);
      var full := s + [Digit(n % 10)];
      assert full == NatDecimal(n);
      assert full[..|full| - 1] == s;
      NatDecimalRoundTrip(n / 10);
    }
  }

  /** An optional leading minus followed by at least one digit. */
  predicate IsSignedDecimal(s: string) {
    |s| > 0 && (if s[0] == '-' then |s| > 1 && AllDigits(s[1..]) else AllDigits(s))
  }

  function SignedValue(s: string): int
    requires IsSignedDecimal(s)
  {
    if s[0] == '-' then -(DecimalValue(s[1..]) as int) else DecimalValue(s)
  }

  /** `str(n)` for a Python int. */
  function IntDecimal(n: int): (s: string)
    ensures IsSignedDecimal(s)
    ensures s[0] == '-' <==> n < 0
  {
    if n < 0 then "-" + NatDecimal(-n) else NatDecimal(n)
  }

  lemma IntDecimalRoundTrip(n: int)
    ensures SignedValue(IntDecimal(n)) == n
  {
    if n < 0 {
      assert IntDecimal(n)[1..] == NatDecimal(-n);
      NatDecimalRoundTrip(-n);
    } else {
      NatDecimalRoundTrip(n);
    }
  }

  lemma IntDecimalInjective(a: int, b: int)
    ensures IntDecimal(a) == IntDecimal(b) <==> a == b
  {
    IntDecimalRoundTrip(a);
    IntDecimalRoundTrip(b);
  }

  /** A rendered integer holds no '-' except possibly its first character. */
  lemma DashOnlyLeading(n: int)
    ensures forall i :: 1 <= i < |IntDecimal(n)| ==> IntDecimal(n)[i] != '-'
  {
    var s := IntDecimal(n);
    if s[0] == '-' {
      forall i | 1 <= i < |s| ensures s[i] != '-' {
        assert s[i] == s[1..][i - 1];
      }
    }
  }

  /**
   * A rendered integer followed by '-' can be split back unambiguously:
   * the first '-' after position 0 ends the number.
   */
  lemma DashSplit(a: int, x: string, b: int, y: string)
    requires IntDecimal(a) + "-" + x == IntDecimal(b) + "-" + y
    ensures a == b && x == y
  {
    var s, t := IntDecimal(a), IntDecimal(b);
    var u := s + "-" + x;
    DashOnlyLeading(a);
    DashOnlyLeading(b);
    assert u[|s|] == '-';
    assert u[|t|] == '-';
    assert forall i :: 1 <= i < |s| ==> u[i] == s[i];
    assert forall i :: 1 <= i < |t| ==> u[i] == t[i];
    assert |s| == |t|;
    assert s == u[..|s|] == t;
    assert x == u[|s| + 1..] == y;
    IntDecimalInjective(a, b);
  }

  lemma PrefixCancel(p: string, x: string, y: string)
    requires p + x == p + y
    ensures x == y
  {
    assert x == (p + x)[|p|..];
    assert y == (p + y)[|p|..];
  }

  /** The cache file of a photo: `{rover}-{camera}-{image_id}.jpg`. */
  function CacheFileName(rover: string, camera: string, id: int): string {
    rover + "-" + camera + "-" + IntDecimal(id) + ".jpg"
  }

  /** Photos of one rover and camera never share a cache file unless they share an id. */
  lemma CacheFileNameDeterminesId(rover: string, camera: string, i: int, j: int)
    ensures CacheFileName(rover, camera, i) == CacheFileName(rover, camera, j) <==> i == j
  {
    if CacheFileName(rover, camera, i) == CacheFileName(rover, camera, j) {
      var p := rover + "-" + camera + "-";
      var u := CacheFileName(rover, camera, i);
      var si, sj := IntDecimal(i) + ".jpg", IntDecimal(j) + ".jpg";
      assert u == p + si;
      assert u == p + sj;
      assert si == u[|p|..] == sj;
      assert IntDecimal(i) == si[..|si| - 4] == IntDecimal(j);
      IntDecimalInjective(i, j);
    }
  }

  function TempPath(file: string): string {
    TempDirectory + "/" + file
  }

  /** The derived file a frame is resized into: `_resized_{file}`. */
  function ResizedName(file: string): string {
    ResizedPrefix + file
  }

  /** A resized copy never overwrites its original, and distinct originals get distinct copies. */
  lemma ResizedNameFresh(f: string, g: string)
    ensures ResizedName(f) != f
    ensures ResizedName(f) == ResizedName(g) <==> f == g
  {
    assert |ResizedName(f)| == |f| + |ResizedPrefix|;
    if ResizedName(f) == ResizedName(g) {
      assert f == ResizedName(f)[|ResizedPrefix|..] == ResizedName(g)[|ResizedPrefix|..] == g;
    }
  }

  /** The video name: `{rover}-{camera}-SOL{start}-{end}-{fps}fps-{ratio}`. */
  function VideoName(rover: string, camera: string, solStart: int, solEnd: int, fps: string, ratio: string): string {
    (rover + "-" + camera + "-SOL") + (IntDecimal(solStart) + "-" + (IntDecimal(solEnd) + "-" + (fps + "fps-" + ratio)))
  }

  /**
   * For a fixed rover and camera, two runs share a video name iff they cover
   * the same sol range and their frame-rate-and-threshold suffix
   * `{fps}fps-{ratio}` is the same text.
   */
  lemma VideoNameDeterminesSolRange(rover: string, camera: string, a: int, b: int, fps: string, ratio: string,
                                    a': int, b': int, fps': string, ratio': string)
    ensures VideoName(rover, camera, a, b, fps, ratio) == VideoName(rover, camera, a', b', fps', ratio')
            <==> a == a' && b == b' && fps + "fps-" + ratio == fps' + "fps-" + ratio'
  {
    if VideoName(rover, camera, a, b, fps, ratio) == VideoName(rover, camera, a', b', fps', ratio') {
      var tail, tail' := fps + "fps-" + ratio, fps' + "fps-" + ratio';
      var x, x' := IntDecimal(b) + "-" + tail, IntDecimal(b') + "-" + tail';
      PrefixCancel(rover + "-" + camera + "-SOL", IntDecimal(a) + "-" + x, IntDecimal(a') + "-" + x');
      DashSplit(a, x, a', x');
      DashSplit(b, tail, b', tail');
    }
  }

  /**
   * Names are joined with '-' without escaping: moving a '-'-separated part
   * from the rover to the camera gives the same cache and video names.
   */
  lemma DashInRoverCollides(x: string, y: string, z: string, id: int, a: int, b: int, fps: string, ratio: string)
    ensures CacheFileName(x + "-" + y, z, id) == CacheFileName(x, y + "-" + z, id)
    ensures VideoName(x + "-" + y, z, a, b, fps, ratio) == VideoName(x, y + "-" + z, a, b, fps, ratio)
  {
    assert (x + "-" + y) + "-" + z == x + "-" + (y + "-" + z);
  }

  /** Where the video is written: `output/{video_name}.avi`. */
  function VideoPath(videoName: string): string {
    OutputDirectory + "/" + videoName + ".avi"
  }
}

=== FILE: outcomes.dfy ===
/**
 * The outcome of a pipeline step: a value, or the exception that ended the run.
 * The pipeline catches nothing, so every failure here propagates to the top.
 */
module Outcomes {

  /** A failure-compatible result, usable with `:-`. */
  datatype Result<+T> = Ok(value: T) | Err(error: Failure) {

    predicate IsFailure() {
      Err?
    }

    function PropagateFailure<U>(): Result<U>
      requires Err?
    {
      Err(error)
    }

    function Extract(): T
      requires Ok?
    {
      value
    }
  }

  /** The exceptions the timelapse pipeline can raise. */
  datatype Failure =
      /** `assert sol_start <= sol_end` failed. */
    | SolRangeReversed(solStart: int, solEnd: int)
      /** No explicit key and no NASA_API_KEY in the environment. */
    | MissingApiKey
      /** The photo-listing request answered with a status other than 200. */
    | RequestFailed(status: int, body: string)
      /** A file or directory that was opened or removed does not exist. */
    | FileNotFound(path: string)
}

=== FILE: run.dfy ===
/**
 * main: check the sol range, collect the cache names of every sol in
 * ascending order, build the video, and remove the temp directory unless it
 * is to be kept.
 */
module Run {
  import opened Outcomes
  import opened Naming
  import opened Frames
  import opened Store
  import opened Sols
  import opened Video

  /**
   * The reference for the sol loop: the photo listings of sols lo..hi
   * (inclusive), each asked for once in ascending order, their cache names
   * concatenated; the first failing sol ends the sweep.
   */
  function Sweep(lo: int, hi: int, rover: string, camera: string, key: string,
                 env: map<string, string>, api: Query -> Listing): Result<seq<string>>
    decreases hi - lo
  {
    if lo > hi then Ok([])
    else
      var photos :- FetchPhotos(lo, rover, camera, key, env, api);
      var rest :- Sweep(lo + 1, hi, rover, camera, key, env, api);
      Ok(PhotoFiles(rover, camera, photos) + rest)
  }

  /** One step of the sweep: the first sol of a non-empty range, then the rest. */
  lemma SweepStep(lo: int, hi: int, rover: string, camera: string, key: string,
                  env: map<string, string>, api: Query -> Listing)
    requires lo <= hi
    ensures var first := FetchPhotos(lo, rover, camera, key, env, api);
            var rest := Sweep(lo + 1, hi, rover, camera, key, env, api);
            Sweep(lo, hi, rover, camera, key, env, api)
            == (if first.Err? then Err(first.error)
                else if rest.Err? then rest
                else Ok(PhotoFiles(rover, camera, first.value) + rest.value))
  {
  }

  /**
   * Sweeping lo..hi is sweeping lo..mid and then mid+1..hi: the first failure
   * wins, and on success the names are the two lists concatenated.
   */
  lemma {:induction false} SweepConcat(lo: int, mid: int, hi: int, rover: string, camera: string,
                                       key: string, env: map<string, string>, api: Query -> Listing)
    requires lo <= mid + 1 && mid <= hi
    ensures var left := Sweep(lo, mid, rover, camera, key, env, api);
            left.Err? ==> Sweep(lo, hi, rover, camera, key, env, api) == left
    ensures var left := Sweep(lo, mid, rover, camera, key, env, api);
            var right := Sweep(mid + 1, hi, rover, camera, key, env, api);
            left.Ok? && right.Err? ==> Sweep(lo, hi, rover, camera, key, env, api) == right
    ensures var left := Sweep(lo, mid, rover, camera, key, env, api);
            var right := Sweep(mid + 1, hi, rover, camera, key, env, api);
            left.Ok? && right.Ok? ==> Sweep(lo, hi, rover, camera, key, env, api) == Ok(left.value + right.value)
    decreases mid - lo
  {
    var whole := Sweep(lo, hi, rover, camera, key, env, api);
    var left := Sweep(lo, mid, rover, camera, key, env, api);
    var right := Sweep(mid + 1, hi, rover, camera, key, env, api);
    if lo > mid {
      assert left == Ok([]);
      if right.Ok? {
        assert [] + right.value == right.value;
      }
    } else {
      SweepConcat(lo + 1, mid, hi, rover, camera, key, env, api);
      SweepStep(lo, hi, rover, camera, key, env, api);
      SweepStep(lo, mid, rover, camera, key, env, api);
      var first := FetchPhotos(lo, rover, camera, key, env, api);
      var left' := Sweep(lo + 1, mid, rover, camera, key, env, api);
      if first.Err? {
        assert whole == left;
      } else if left'.Err? {
        assert whole == left;
      } else if right.Err? {
        assert whole == right;
      } else {
        var head := PhotoFiles(rover, camera, first.value);
        assert left.value == head + left'.value;
        assert head + (left'.value + right.value) == (head + left'.value) + right.value;
      }
    }
  }

  /**
   * A sweep over a non-empty range succeeds exactly when the key resolves and
   * every sol of the range is listed with status 200.
   */
  lemma {:induction false} SweepSucceedsIff(lo: int, hi: int, rover: string, camera: string,
                                            key: string, env: map<string, string>, api: Query -> Listing)
    ensures Sweep(lo, hi, rover, camera, key, env, api).Ok?
            <==> forall s :: lo <= s <= hi ==> FetchPhotos(s, rover, camera, key, env, api).Ok?
    decreases hi - lo
  {
    if lo <= hi {
      SweepSucceedsIff(lo + 1, hi, rover, camera, key, env, api);
    }
  }

  /**
   * A failed sweep reports the failure of its first failing sol; every sol
   * before that one succeeded.
   */
  lemma {:induction false} SweepFirstFailure(lo: int, hi: int, rover: string, camera: string,
                                             key: string, env: map<string, string>, api: Query -> Listing)
    requires Sweep(lo, hi, rover, camera, key, env, api).Err?
    ensures exists s :: lo <= s <= hi
                        && FetchPhotos(s, rover, camera, key, env, api).Err?
                        && Sweep(lo, hi, rover, camera, key, env, api).error == FetchPhotos(s, rover, camera, key, env, api).error
                        && forall s' :: lo <= s' < s ==> FetchPhotos(s', rover, camera, key, env, api).Ok?
    decreases hi - lo
  {
    if FetchPhotos(lo, rover, camera, key, env, api).Err? {
      assert lo <= lo <= hi;
    } else {
      SweepFirstFailure(lo + 1, hi, rover, camera, key, env, api);
      var s :| lo + 1 <= s <= hi
               && FetchPhotos(s, rover, camera, key, env, api).Err?
               && Sweep(lo + 1, hi, rover, camera, key, env, api).error == FetchPhotos(s, rover, camera, key, env, api).error
               && forall s' :: lo + 1 <= s' < s ==> FetchPhotos(s', rover, camera, key, env, api).Ok?;
      assert forall s' :: lo <= s' < s ==> FetchPhotos(s', rover, camera, key, env, api).Ok?;
    }
  }

  /** Some sol of lo..hi is listed and holds a photo saved under `file` whose download answers 200. */
  predicate SweepFetched(lo: int, hi: int, rover: string, camera: string, key: string,
                         env: map<string, string>, api: Query -> Listing, fetch: string -> Download,
                         file: string)
  {
    exists s :: lo <= s <= hi && FetchPhotos(s, rover, camera, key, env, api).Ok?
                && Fetched(file, rover, camera, FetchPhotos(s, rover, camera, key, env, api).value, fetch)
  }

  /** Extending the range by one sol adds exactly what that sol fetches. */
  lemma SweepFetchedExtend(lo: int, hi: int, rover: string, camera: string, key: string,
                           env: map<string, string>, api: Query -> Listing, fetch: string -> Download,
                           file: string)
    ensures SweepFetched(lo, hi + 1, rover, camera, key, env, api, fetch, file)
            <==> SweepFetched(lo, hi, rover, camera, key, env, api, fetch, file)
                 || (lo <= hi + 1 && FetchPhotos(hi + 1, rover, camera, key, env, api).Ok?
                     && Fetched(file, rover, camera, FetchPhotos(hi + 1, rover, camera, key, env, api).value, fetch))
  {
    if SweepFetched(lo, hi + 1, rover, camera, key, env, api, fetch, file) {
      var s :| lo <= s <= hi + 1 && FetchPhotos(s, rover, camera, key, env, api).Ok?
               && Fetched(file, rover, camera, FetchPhotos(s, rover, camera, key, env, api).value, fetch);
      if s <= hi {
        assert SweepFetched(lo, hi, rover, camera, key, env, api, fetch, file);
      }
    }
  }

  /** Some sol of lo..hi is listed and holds a photo saved under `file` by a 200 download of that size. */
  predicate SweepFetchedAs(lo: int, hi: int, rover: string, camera: string, key: string,
                           env: map<string, string>, api: Query -> Listing, fetch: string -> Download,
                           file: string, size: Size)
  {
    exists s :: lo <= s <= hi && FetchPhotos(s, rover, camera, key, env, api).Ok?
                && FetchedAs(file, size, rover, camera, FetchPhotos(s, rover, camera, key, env, api).value, fetch)
  }

  /** Extending the range by one sol only adds to what the sweep has fetched. */
  lemma SweepFetchedAsExtend(lo: int, hi: int, rover: string, camera: string, key: string,
                             env: map<string, string>, api: Query -> Listing, fetch: string -> Download,
                             file: string, size: Size)
    ensures SweepFetchedAs(lo, hi + 1, rover, camera, key, env, api, fetch, file, size)
            <==> SweepFetchedAs(lo, hi, rover, camera, key, env, api, fetch, file, size)
                 || (lo <= hi + 1 && FetchPhotos(hi + 1, rover, camera, key, env, api).Ok?
                     && FetchedAs(file, size, rover, camera, FetchPhotos(hi + 1, rover, camera, key, env, api).value, fetch))
  {
    if SweepFetchedAs(lo, hi + 1, rover, camera, key, env, api, fetch, file, size) {
      var s :| lo <= s <= hi + 1 && FetchPhotos(s, rover, camera, key, env, api).Ok?
               && FetchedAs(file, size, rover, camera, FetchPhotos(s, rover, camera, key, env, api).value, fetch);
      if s <= hi {
        assert SweepFetchedAs(lo, hi, rover, camera, key, env, api, fetch, file, size);
      }
    }
  }

  /**
   * Whether `file` is in the cache once the sols lo..hi are processed: it was
   * cached before, or some sol of the range downloaded it with status 200.
   */
  predicate CachedAfter(lo: int, hi: int, rover: string, camera: string, key: string,
                        env: map<string, string>, api: Query -> Listing, fetch: string -> Download,
                        temp: TempDir, file: string)
  {
    Has(temp, file) || SweepFetched(lo, hi, rover, camera, key, env, api, fetch, file)
  }

  /**
   * What a sweep of lo..hi did to the cache, starting from `temp` and having
   * collected `images`: a file is cached afterwards iff it was before or some
   * sol of the range downloaded it, only collected names are added, and the
   * directory exists iff it did before or it holds a file. Each cached file
   * keeps its old content or holds what some 200 download of it carried, and
   * without a forced download nothing cached before changes.
   */
  ghost predicate SweptCache(lo: int, hi: int, rover: string, force: bool, camera: string, key: string,
                             env: map<string, string>, api: Query -> Listing, fetch: string -> Download,
                             temp: TempDir, cache: TempDir, images: seq<string>)
  {
    && (forall f :: Has(cache, f) <==> CachedAfter(lo, hi, rover, camera, key, env, api, fetch, temp, f))
    && (forall f :: Has(cache, f) ==> Has(temp, f) || f in images)
    && (cache.Present? <==> temp.Present? || exists f :: Has(cache, f))
    && (forall f :: Has(cache, f) ==>
          || (Has(temp, f) && Contents(cache)[f] == Contents(temp)[f])
          || SweepFetchedAs(lo, hi, rover, camera, key, env, api, fetch, f, Contents(cache)[f]))
    && (!force ==> forall f :: Has(temp, f) ==> Has(cache, f) && Contents(cache)[f] == Contents(temp)[f])
  }

  /** Before the first sol nothing has been swept: the cache is the one the run started with. */
  lemma SweptCacheStart(lo: int, rover: string, force: bool, camera: string, key: string,
                        env: map<string, string>, api: Query -> Listing, fetch: string -> Download,
                        temp: TempDir)
    ensures SweptCache(lo, lo - 1, rover, force, camera, key, env, api, fetch, temp, temp, [])
  {
  }

  /** One more successful process_sol extends the swept range by one sol. */
  lemma SweptCacheStep(lo: int, current: int, rover: string, force: bool, camera: string, key: string,
                       env: map<string, string>, api: Query -> Listing, fetch: string -> Download,
                       temp: TempDir, cache: TempDir, images: seq<string>, step: Batch)
    requires lo <= current
    requires SweptCache(lo, current - 1, rover, force, camera, key, env, api, fetch, temp, cache, images)
    requires ProcessSol(current, rover, force, camera, key, env, api, fetch, cache) == Ok(step)
    ensures SweptCache(lo, current, rover, force, camera, key, env, api, fetch, temp, step.temp, images + step.files)
  {
    forall f
      ensures Has(step.temp, f) <==> CachedAfter(lo, current, rover, camera, key, env, api, fetch, temp, f)
    {
      SweepFetchedExtend(lo, current - 1, rover, camera, key, env, api, fetch, f);
    }
    forall f | Has(step.temp, f)
      ensures || (Has(temp, f) && Contents(step.temp)[f] == Contents(temp)[f])
              || SweepFetchedAs(lo, current, rover, camera, key, env, api, fetch, f, Contents(step.temp)[f])
    {
      SweepFetchedAsExtend(lo, current - 1, rover, camera, key, env, api, fetch, f, Contents(step.temp)[f]);
    }
  }

  /** A successful process_sol for the next sol extends a successful sweep by its names. */
  lemma SweepExtendOk(lo: int, current: int, rover: string, force: bool, camera: string, key: string,
                      env: map<string, string>, api: Query -> Listing, fetch: string -> Download,
                      cache: TempDir, images: seq<string>, step: Batch)
    requires lo <= current
    requires Sweep(lo, current - 1, rover, camera, key, env, api) == Ok(images)
    requires ProcessSol(current, rover, force, camera, key, env, api, fetch, cache) == Ok(step)
    ensures Sweep(lo, current, rover, camera, key, env, api) == Ok(images + step.files)
  {
    SweepConcat(lo, current - 1, current, rover, camera, key, env, api);
    var photos := FetchPhotos(current, rover, camera, key, env, api).value;
    assert step.files == PhotoFiles(rover, camera, photos);
    assert Sweep(current + 1, current, rover, camera, key, env, api) == Ok([]);
    assert PhotoFiles(rover, camera, photos) + [] == PhotoFiles(rover, camera, photos);
    assert Sweep(current, current, rover, camera, key, env, api) == Ok(step.files);
  }

  /** A failing process_sol inside the range ends the whole sweep with its failure. */
  lemma SweepStopsAt(lo: int, current: int, hi: int, rover: string, force: bool, camera: string, key: string,
                     env: map<string, string>, api: Query -> Listing, fetch: string -> Download,
                     cache: TempDir, images: seq<string>)
    requires lo <= current <= hi
    requires Sweep(lo, current - 1, rover, camera, key, env, api) == Ok(images)
    requires ProcessSol(current, rover, force, camera, key, env, api, fetch, cache).Err?
    ensures Sweep(lo, hi, rover, camera, key, env, api)
            == Err(ProcessSol(current, rover, force, camera, key, env, api, fetch, cache).error)
    ensures FetchPhotos(current, rover, camera, key, env, api).Err?
            && FetchPhotos(current, rover, camera, key, env, api).error
               == ProcessSol(current, rover, force, camera, key, env, api, fetch, cache).error
  {
    SweepConcat(lo, current - 1, current, rover, camera, key, env, api);
    SweepConcat(lo, current, hi, rover, camera, key, env, api);
  }

  /**
   * The while loop of main: process_sol for sol_start, sol_start+1, ..., sol_end,
   * extending the image list. It collects exactly what the sweep describes and
   * stops at the same failure. A file is cached afterwards iff it was before or
   * some sol downloaded it with status 200; only collected names are added.
   * process_sol raises before its first download, so a failing sol leaves the
   * directory `temp'` as the sols before it made it.
   */
  method CollectSols(rover: string, solStart: int, solEnd: int, force: bool, camera: string,
                     key: string, env: map<string, string>, api: Query -> Listing,
                     fetch: string -> Download, temp: TempDir)
    returns (r: Result<Batch>, temp': TempDir)
    ensures var sweep := Sweep(solStart, solEnd, rover, camera, key, env, api);
            && (r.Ok? <==> sweep.Ok?)
            && (r.Err? ==> r.error == sweep.error)
            && (r.Ok? ==> r.value.files == sweep.value)
    ensures r.Ok? ==> SweptCache(solStart, solEnd, rover, force, camera, key, env, api, fetch, temp, r.value.temp, r.value.files)
    ensures r.Ok? && r.value.files == [] ==> r.value.temp == temp
    ensures r.Ok? ==> temp' == r.value.temp
    ensures ResolveKey(key, env).Err? ==> temp' == temp
    ensures r.Err? ==>
              exists s :: && solStart <= s <= solEnd
                          && FetchPhotos(s, rover, camera, key, env, api).Err?
                          && r.error == FetchPhotos(s, rover, camera, key, env, api).error
                          && Sweep(solStart, s - 1, rover, camera, key, env, api).Ok?
                          && SweptCache(solStart, s - 1, rover, force, camera, key, env, api, fetch, temp, temp',
                                        Sweep(solStart, s - 1, rover, camera, key, env, api).value)
  {
    SweptCacheStart(solStart, rover, force, camera, key, env, api, fetch, temp);
    if solStart > solEnd {
      return Ok(Batch([], temp)), temp;
    }
    var current := solStart;
    var images: seq<string> := [];
    var cache := temp;
    while current <= solEnd
      invariant solStart <= current <= solEnd + 1
      invariant Sweep(solStart, current - 1, rover, camera, key, env, api) == Ok(images)
      invariant SweptCache(solStart, current - 1, rover, force, camera, key, env, api, fetch, temp, cache, images)
      invariant images == [] ==> cache == temp
      invariant ResolveKey(key, env).Err? ==> cache == temp
      decreases solEnd - current
    {
      var step := ProcessSol(current, rover, force, camera, key, env, api, fetch, cache);
      if step.Err? {
        SweepStopsAt(solStart, current, solEnd, rover, force, camera, key, env, api, fetch, cache, images);
        assert SweptCache(solStart, current - 1, rover, force, camera, key, env, api, fetch, temp, cache,
                          Sweep(solStart, current - 1, rover, camera, key, env, api).value);
        return Err(step.error), cache;
      }
      SweepExtendOk(solStart, current, rover, force, camera, key, env, api, fetch, cache, images, step.value);
      SweptCacheStep(solStart, current, rover, force, camera, key, env, api, fetch, temp, cache, images, step.value);
      images := images + step.value.files;
      cache := step.value.temp;
      current := current + 1;
    }
    r, temp' := Ok(Batch(images, cache)), cache;
  }

  /** Everything main leaves behind when it returns normally. */
  datatype Report = Report(
    images: seq<string>,   // the collected cache names, handed to make_video
    staged: TempDir,       // the temp directory as make_video found it
    videoName: string,
    video: VideoOutcome,
    temp: TempDir,         // the temp directory at the end
    removed: bool)         // whether the temp directory was deleted

  /**
   * What the tail of main leaves when it returns normally, having handed
   * `images` in `staged` to make_video: every collected file was there; the
   * video is NoImagesFound iff no image passes the threshold, and otherwise it
   * is written to the output path at the given fps, at the truncated mean size
   * of the kept images, with frame k the resized copy of the k-th kept image.
   * The temp directory is removed iff keep_temp is false; a kept directory
   * gains exactly the resized copies, at the frame size, and nothing else in
   * it changes.
   */
  ghost predicate Finished(images: seq<string>, staged: TempDir, videoName: string, t: AspectRatio,
                           fps: string, keepTemp: bool, report: Report)
  {
    && report.images == images && report.staged == staged && report.videoName == videoName
    && (forall i :: 0 <= i < |images| ==> Has(staged, images[i]))
    && Probe(images, staged).Ok?
    && var kept := Kept(Probe(images, staged).value, t);
       var resized := ResizedNames(Files(kept));
       var video := report.video;
       && (video.NoImagesFound? <==> |kept| == 0)
       && report.removed == !keepTemp
       && (report.removed ==> report.temp == Absent)
       && (!report.removed ==> report.temp.Present? == staged.Present?)
       && (!report.removed && video.NoImagesFound? ==> report.temp == staged)
       && (video.Written? ==>
             && video.path == VideoPath(videoName)
             && video.fps == fps
             && video.frameSize == Size(TruncatedMean(Widths(kept)), TruncatedMean(Heights(kept)))
             && |video.frames| == |kept|
             && (forall k :: 0 <= k < |kept| ==> video.frames[k] == ImageInfo(resized[k], video.frameSize))
             && (!report.removed ==> forall f :: Has(report.temp, f) <==> Has(staged, f) || f in resized)
             && (!report.removed ==> forall f :: f in resized ==> Contents(report.temp)[f] == video.frameSize)
             && (!report.removed ==>
                   forall f :: Has(staged, f) && f !in resized ==> Contents(report.temp)[f] == Contents(staged)[f]))
  }

  /**
   * The tail of main: make_video, then shutil.rmtree of the temp directory
   * unless keep_temp. An exception in make_video skips the removal; removing a
   * temp directory that was never created fails. `temp'` is the directory the
   * run leaves behind, on failure as on success.
   */
  method Finish(images: seq<string>, staged: TempDir, videoName: string, t: AspectRatio,
                fps: string, keepTemp: bool)
    returns (r: Result<Report>, temp': TempDir)
    ensures Probe(images, staged).Err? ==> r == Err(Probe(images, staged).error)
    ensures Probe(images, staged).Ok? ==> (r.Err? <==> !keepTemp && staged.Absent?)
    ensures r.Err? && Probe(images, staged).Ok? ==> r.error == FileNotFound(TempDirectory)
    ensures r.Ok? ==> Finished(images, staged, videoName, t, fps, keepTemp, r.value)
    ensures r.Err? ==> temp' == staged
    ensures r.Ok? ==> temp' == r.value.temp
  {
    var video, after := MakeVideo(images, staged, videoName, t, fps);
    if video.Err? {
      return Err(video.error), after;
    }
    if keepTemp {
      return Ok(Report(images, staged, videoName, video.value, after, false)), after;
    }
    if after.Absent? {
      return Err(FileNotFound(TempDirectory)), after;
    }
    r, temp' := Ok(Report(images, staged, videoName, video.value, Absent, true)), Absent;
  }

  /**
   * make_video opens the collected files in order: with the cache described by
   * `present`, it finds them all iff each is present, and otherwise stops at
   * the first one missing.
   */
  lemma ProbeByPresence(names: seq<string>, staged: TempDir, present: string -> bool)
    requires forall f :: Has(staged, f) <==> present(f)
    ensures Probe(names, staged).Ok? <==> forall i :: 0 <= i < |names| ==> present(names[i])
    ensures Probe(names, staged).Err? ==>
              exists i :: && 0 <= i < |names| && !present(names[i])
                          && Probe(names, staged).error == FileNotFound(TempPath(names[i]))
                          && forall j :: 0 <= j < i ==> present(names[j])
  {
  }

  /**
   * After a sweep that started without a temp directory, the directory exists
   * iff some sol of the range downloaded a file.
   */
  lemma SweptCachePresent(lo: int, hi: int, rover: string, force: bool, camera: string, key: string,
                          env: map<string, string>, api: Query -> Listing, fetch: string -> Download,
                          temp: TempDir, cache: TempDir, images: seq<string>)
    requires SweptCache(lo, hi, rover, force, camera, key, env, api, fetch, temp, cache, images)
    ensures cache.Present? <==> temp.Present? || exists f :: SweepFetched(lo, hi, rover, camera, key, env, api, fetch, f)
  {
    if exists f :: SweepFetched(lo, hi, rover, camera, key, env, api, fetch, f) {
      var f :| SweepFetched(lo, hi, rover, camera, key, env, api, fetch, f);
      assert Has(cache, f);
    }
    if cache.Present? && !temp.Present? {
      var f :| Has(cache, f);
      assert CachedAfter(lo, hi, rover, camera, key, env, api, fetch, temp, f);
    }
  }

  /**
   * make_video after a sweep: it opens every collected file iff each was
   * cached before or downloaded by some sol, and otherwise fails on the first
   * that was neither.
   */
  lemma SweptProbe(lo: int, hi: int, rover: string, force: bool, camera: string, key: string,
                   env: map<string, string>, api: Query -> Listing, fetch: string -> Download,
                   temp: TempDir, staged: TempDir, images: seq<string>)
    requires SweptCache(lo, hi, rover, force, camera, key, env, api, fetch, temp, staged, images)
    ensures Probe(images, staged).Ok?
            <==> forall i :: 0 <= i < |images| ==> CachedAfter(lo, hi, rover, camera, key, env, api, fetch, temp, images[i])
    ensures Probe(images, staged).Err? ==>
              exists i :: && 0 <= i < |images|
                          && !CachedAfter(lo, hi, rover, camera, key, env, api, fetch, temp, images[i])
                          && Probe(images, staged).error == FileNotFound(TempPath(images[i]))
                          && forall j :: 0 <= j < i ==> CachedAfter(lo, hi, rover, camera, key, env, api, fetch, temp, images[j])
  {
    ProbeByPresence(images, staged, f => CachedAfter(lo, hi, rover, camera, key, env, api, fetch, temp, f));
  }

  /**
   * main. A reversed sol range fails before anything else; a missing key fails
   * at the first sol; a listing failure ends the run with that sol's failure.
   * Otherwise the images are the cache names of every sol of the range in
   * ascending order, the video is named from rover, camera, range, frame rate
   * and threshold, and the temp directory is removed unless keep_temp.
   * `temp'` is the directory the run leaves behind: an exception skips the
   * removal, so a failed run keeps what the sols before the failure cached.
   */
  method RunTimelapse(rover: string, solStart: int, solEnd: int, t: AspectRatio, force: bool,
                      fps: string, keepTemp: bool, camera: string, key: string,
                      env: map<string, string>, api: Query -> Listing, fetch: string -> Download,
                      temp: TempDir)
    returns (r: Result<Report>, temp': TempDir)
    ensures solStart > solEnd ==> r == Err(SolRangeReversed(solStart, solEnd))
    ensures solStart <= solEnd && ResolveKey(key, env).Err? ==> r == Err(MissingApiKey)
    ensures solStart <= solEnd && Sweep(solStart, solEnd, rover, camera, key, env, api).Err? ==>
              r == Err(Sweep(solStart, solEnd, rover, camera, key, env, api).error)
    ensures r.Ok? ==> solStart <= solEnd && Sweep(solStart, solEnd, rover, camera, key, env, api) == Ok(r.value.images)
    ensures r.Ok? ==> r.value.videoName == VideoName(rover, camera, solStart, solEnd, fps, t.text)
    ensures r.Ok? ==> forall f :: Has(temp, f) ==> Has(r.value.staged, f)
    ensures r.Ok? ==> SweptCache(solStart, solEnd, rover, force, camera, key, env, api, fetch,
                                 temp, r.value.staged, r.value.images)
    ensures r.Ok? ==> Finished(r.value.images, r.value.staged, VideoName(rover, camera, solStart, solEnd, fps, t.text),
                               t, fps, keepTemp, r.value)
    ensures r.Ok? ==> temp' == r.value.temp
    ensures solStart > solEnd ==> temp' == temp
    ensures ResolveKey(key, env).Err? ==> temp' == temp
    ensures solStart <= solEnd && Sweep(solStart, solEnd, rover, camera, key, env, api).Err? ==>
              exists s :: && solStart <= s <= solEnd
                          && FetchPhotos(s, rover, camera, key, env, api).Err?
                          && r.error == FetchPhotos(s, rover, camera, key, env, api).error
                          && Sweep(solStart, s - 1, rover, camera, key, env, api).Ok?
                          && SweptCache(solStart, s - 1, rover, force, camera, key, env, api, fetch, temp, temp',
                                        Sweep(solStart, s - 1, rover, camera, key, env, api).value)
    ensures var sweep := Sweep(solStart, solEnd, rover, camera, key, env, api);
            solStart <= solEnd && sweep.Ok? && r.Err? ==>
              SweptCache(solStart, solEnd, rover, force, camera, key, env, api, fetch, temp, temp', sweep.value)
    ensures var sweep := Sweep(solStart, solEnd, rover, camera, key, env, api);
            solStart <= solEnd && sweep.Ok?
            && (exists i :: 0 <= i < |sweep.value|
                            && !CachedAfter(solStart, solEnd, rover, camera, key, env, api, fetch, temp, sweep.value[i]))
            ==> && r.Err?
                && exists i ::
                     && 0 <= i < |sweep.value|
                     && r.error == FileNotFound(TempPath(sweep.value[i]))
                     && !CachedAfter(solStart, solEnd, rover, camera, key, env, api, fetch, temp, sweep.value[i])
                     && forall j :: 0 <= j < i ==>
                          CachedAfter(solStart, solEnd, rover, camera, key, env, api, fetch, temp, sweep.value[j])
    ensures var sweep := Sweep(solStart, solEnd, rover, camera, key, env, api);
            solStart <= solEnd && sweep.Ok?
            && (forall i :: 0 <= i < |sweep.value| ==>
                  CachedAfter(solStart, solEnd, rover, camera, key, env, api, fetch, temp, sweep.value[i]))
            ==> (r.Ok? <==> keepTemp || temp.Present?
                            || exists f :: SweepFetched(solStart, solEnd, rover, camera, key, env, api, fetch, f))
    ensures (solStart <= solEnd && Sweep(solStart, solEnd, rover, camera, key, env, api) == Ok([])
             && temp == Absent && !keepTemp) ==> r == Err(FileNotFound(TempDirectory))
  {
    if solStart > solEnd {
      return Err(SolRangeReversed(solStart, solEnd)), temp;
    }
    var collected, swept := CollectSols(rover, solStart, solEnd, force, camera, key, env, api, fetch, temp);
    if collected.Err? {
      return Err(collected.error), swept;
    }
    var videoName := VideoName(rover, camera, solStart, solEnd, fps, t.text);
    r, temp' := Finish(collected.value.files, collected.value.temp, videoName, t, fps, keepTemp);
    SweptCachePresent(solStart, solEnd, rover, force, camera, key, env, api, fetch, temp, collected.value.temp, collected.value.files);
    SweptProbe(solStart, solEnd, rover, force, camera, key, env, api, fetch, temp, collected.value.temp, collected.value.files);
  }
}

=== FILE: scenarios.dfy ===
/** Concrete instances of the selection rules on small inputs. */
module Scenarios {
  import opened Outcomes
  import opened Naming
  import opened Frames
  import opened Store
  import opened Sols
  import opened Video
  import opened Run

  /** A ratio equal to the threshold is dropped; one just above it is kept. */
  lemma ThresholdIsStrict()
    ensures !Wide(Size(200, 100), AspectRatio(2, 1, "2.0"))
    ensures Wide(Size(201, 100), AspectRatio(2, 1, "2.0"))
  {
  }

  /** Widths 101 and 100 average to 100, not 100.5 or 101. */
  lemma MeanTruncates()
    ensures TruncatedMean([101, 100]) == 100
  {
    assert Sum([101, 100]) == 201;
  }

  /**
   * Ratios 1.0, 2.5 and 3.0 against a threshold of 2: the last two survive,
   * and the frame size averages over those two only.
   */
  lemma ThreeImages()
    ensures var all := [ImageInfo("a.jpg", Size(100, 100)),
                        ImageInfo("b.jpg", Size(250, 100)),
                        ImageInfo("c.jpg", Size(300, 100))];
            var kept := Kept(all, AspectRatio(2, 1, "2.0"));
            && kept == all[1..]
            && TruncatedMean(Widths(kept)) == 275
            && TruncatedMean(Heights(kept)) == 100
  {
    var all := [ImageInfo("a.jpg", Size(100, 100)),
                ImageInfo("b.jpg", Size(250, 100)),
                ImageInfo("c.jpg", Size(300, 100))];
    var t := AspectRatio(2, 1, "2.0");
    assert all[..2][..1] == all[..1];
    assert all[..3][..2] == all[..2];
    assert all[..1][..0] == [];
    assert Kept(all[..1], t) == [];
    assert Kept(all[..2], t) == [all[1]];
    assert Kept(all, t) == [all[1], all[2]];
    var ws: seq<Pos> := [250, 300];
    var hs: seq<Pos> := [100, 100];
    assert Widths(Kept(all, t)) == ws;
    assert Heights(Kept(all, t)) == hs;
    assert ws[..1] == [250];
    assert hs[..1] == [100];
    assert Sum(ws) == 550;
    assert Sum(hs) == 200;
  }

  /** The cache file of photo 42 from the left navigation camera of Curiosity. */
  lemma NameOfPhoto()
    ensures CacheFileName("curiosity", "NAVCAM_LEFT", 42) == "curiosity-NAVCAM_LEFT-42.jpg"
  {
    assert Digit(4) == '4' && Digit(2) == '2';
    assert NatDecimal(42) == NatDecimal(4) + [Digit(2)] == "42";
  }

  /** The facts about a one-sol sweep whose listing holds the single photo `p`. */
  lemma OnePhotoSweep(rover: string, camera: string, sol: int, key: string, env: map<string, string>,
                      api: Query -> Listing, fetch: string -> Download, p: Photo)
    requires key != ""
    requires api(Query(rover, sol, camera, key)).status == 200
    requires api(Query(rover, sol, camera, key)).photos == [p]
    ensures Sweep(sol, sol, rover, camera, key, env, api) == Ok([CacheFileName(rover, camera, p.id)])
    ensures SweepFetched(sol, sol, rover, camera, key, env, api, fetch, CacheFileName(rover, camera, p.id))
            <==> fetch(p.imgSrc).status == 200
    ensures forall size :: SweepFetchedAs(sol, sol, rover, camera, key, env, api, fetch,
                                          CacheFileName(rover, camera, p.id), size)
                           ==> size == fetch(p.imgSrc).size
    ensures forall f :: SweepFetched(sol, sol, rover, camera, key, env, api, fetch, f)
                        ==> f == CacheFileName(rover, camera, p.id)
  {
    var name := CacheFileName(rover, camera, p.id);
    assert FetchPhotos(sol, rover, camera, key, env, api) == Ok([p]);
    assert Sweep(sol + 1, sol, rover, camera, key, env, api) == Ok([]);
    assert PhotoFiles(rover, camera, [p]) == [name];
    SweepStep(sol, sol, rover, camera, key, env, api);
    assert [name] + [] == [name];
    if fetch(p.imgSrc).status == 200 {
      assert [p][0] == p;
      assert Fetched(name, rover, camera, [p], fetch);
    }
  }

  /**
   * One sol listing one photo whose download fails, with no temp directory
   * yet: the photo's name is still collected, and the run fails when
   * make_video opens it.
   */
  method FailedDownloadFailsRun(rover: string, camera: string, sol: int, t: AspectRatio, fps: string,
                                keepTemp: bool, key: string, env: map<string, string>,
                                api: Query -> Listing, fetch: string -> Download, p: Photo)
    returns (r: Result<Report>, temp': TempDir)
    requires key != ""
    requires api(Query(rover, sol, camera, key)).status == 200
    requires api(Query(rover, sol, camera, key)).photos == [p]
    requires fetch(p.imgSrc).status != 200
    ensures r == Err(FileNotFound(TempPath(CacheFileName(rover, camera, p.id))))
    ensures temp' == Absent
  {
    OnePhotoSweep(rover, camera, sol, key, env, api, fetch, p);
    var name := CacheFileName(rover, camera, p.id);
    assert Sweep(sol, sol, rover, camera, key, env, api).value[0] == name;
    assert !CachedAfter(sol, sol, rover, camera, key, env, api, fetch, Absent, name);
    r, temp' := RunTimelapse(rover, sol, sol, t, false, fps, keepTemp, camera, key, env, api, fetch, Absent);
  }

  /** After that sweep with a successful download, the photo is staged at the downloaded size. */
  lemma OnePhotoStaged(rover: string, camera: string, sol: int, key: string, env: map<string, string>,
                       api: Query -> Listing, fetch: string -> Download, p: Photo,
                       staged: TempDir, images: seq<string>)
    requires key != ""
    requires api(Query(rover, sol, camera, key)).status == 200
    requires api(Query(rover, sol, camera, key)).photos == [p]
    requires fetch(p.imgSrc).status == 200
    requires SweptCache(sol, sol, rover, false, camera, key, env, api, fetch, Absent, staged, images)
    ensures Has(staged, CacheFileName(rover, camera, p.id))
    ensures Contents(staged)[CacheFileName(rover, camera, p.id)] == fetch(p.imgSrc).size
  {
    OnePhotoSweep(rover, camera, sol, key, env, api, fetch, p);
    var name := CacheFileName(rover, camera, p.id);
    assert CachedAfter(sol, sol, rover, camera, key, env, api, fetch, Absent, name);
    assert SweepFetchedAs(sol, sol, rover, camera, key, env, api, fetch, name, Contents(staged)[name]);
  }

  /** make_video over one staged image that passes the threshold keeps it at its own size. */
  lemma OneImageFrame(name: string, size: Size, staged: TempDir, t: AspectRatio)
    requires Has(staged, name) && Contents(staged)[name] == size && Wide(size, t)
    ensures Probe([name], staged) == Ok([ImageInfo(name, size)])
    ensures Kept(Probe([name], staged).value, t) == [ImageInfo(name, size)]
    ensures TruncatedMean(Widths([ImageInfo(name, size)])) == size.width
    ensures TruncatedMean(Heights([ImageInfo(name, size)])) == size.height
  {
    var kept := [ImageInfo(name, size)];
    assert Probe([name], staged).value == kept;
    assert Kept(kept, t) == kept;
    assert Widths(kept) == [size.width] && Heights(kept) == [size.height];
    assert Sum(Widths(kept)) == size.width && Sum(Heights(kept)) == size.height;
  }

  /**
   * The same run with a download that answers 200 with an image wide enough:
   * the run succeeds, removes the temp directory, and writes a one-frame
   * video of the downloaded size.
   */
  method DownloadedPhotoMakesVideo(rover: string, camera: string, sol: int, t: AspectRatio, fps: string,
                                   key: string, env: map<string, string>,
                                   api: Query -> Listing, fetch: string -> Download, p: Photo)
    returns (r: Result<Report>, temp': TempDir)
    requires key != ""
    requires api(Query(rover, sol, camera, key)).status == 200
    requires api(Query(rover, sol, camera, key)).photos == [p]
    requires fetch(p.imgSrc).status == 200 && Wide(fetch(p.imgSrc).size, t)
    ensures r.Ok? && r.value.removed && r.value.video.Written?
    ensures r.Ok? && r.value.video.Written? ==> r.value.video.frameSize == fetch(p.imgSrc).size
    ensures r.Ok? ==> r.value.temp == Absent
    ensures temp' == Absent
    ensures r.Ok? && r.value.video.Written? ==> && r.value.video.fps == fps
                                                && |r.value.video.frames| == 1
                                                && r.value.video.frames[0]
                                                   == ImageInfo(ResizedName(CacheFileName(rover, camera, p.id)),
                                                                fetch(p.imgSrc).size)
  {
    OnePhotoSweep(rover, camera, sol, key, env, api, fetch, p);
    var name := CacheFileName(rover, camera, p.id);
    assert Sweep(sol, sol, rover, camera, key, env, api).value[0] == name;
    assert CachedAfter(sol, sol, rover, camera, key, env, api, fetch, Absent, name);
    r, temp' := RunTimelapse(rover, sol, sol, t, false, fps, false, camera, key, env, api, fetch, Absent);
    OnePhotoStaged(rover, camera, sol, key, env, api, fetch, p, r.value.staged, r.value.images);
    OneImageFrame(name, fetch(p.imgSrc).size, r.value.staged, t);
  }
}

=== FILE: sols.dfy ===
/**
 * process_sol: resolve the API key, ask the photo API for one sol's listing,
 * and save every listed photo into the cache, in the order of the response.
 */
module Sols {
  import opened Outcomes
  import opened Naming
  import opened Frames
  import opened Store

  /** One entry of the `photos` array of the listing: its `id` and `img_src`. */
  datatype Photo = Photo(id: int, imgSrc: string)

  /** The listing request: rover in the path, api_key, sol and camera as query parameters. */
  datatype Query = Query(rover: string, sol: int, camera: string, apiKey: string)

  /** The listing response: status, body text, and the parsed `photos` array. */
  datatype Listing = Listing(status: int, body: string, photos: seq<Photo>)

  const ApiKeyVariable := "NASA_API_KEY"

  /**
   * The API key: a non-empty explicit key wins, else the environment's
   * NASA_API_KEY (whatever its value), else the run fails.
   */
  function ResolveKey(key: string, env: map<string, string>): (r: Result<string>)
    ensures r.Err? <==> key == "" && ApiKeyVariable !in env
    ensures r.Err? ==> r.error == MissingApiKey
    ensures r.Ok? && key != "" ==> r.value == key
    ensures r.Ok? && key == "" ==> ApiKeyVariable in env && r.value == env[ApiKeyVariable]
  {
    if key != "" then Ok(key)
    else if ApiKeyVariable in env then Ok(env[ApiKeyVariable])
    else Err(MissingApiKey)
  }

  /** The photos listed for one sol, or the failure that stops the run. */
  function FetchPhotos(sol: int, rover: string, camera: string, key: string,
                       env: map<string, string>, api: Query -> Listing): (r: Result<seq<Photo>>)
    ensures ResolveKey(key, env).Err? ==> r == Err(MissingApiKey)
    ensures ResolveKey(key, env).Ok? ==>
              var listing := api(Query(rover, sol, camera, ResolveKey(key, env).value));
              && (r.Ok? <==> listing.status == 200)
              && (r.Ok? ==> r.value == listing.photos)
              && (r.Err? ==> r.error == RequestFailed(listing.status, listing.body))
  {
    var apiKey :- ResolveKey(key, env);
    var listing := api(Query(rover, sol, camera, apiKey));
    if listing.status != 200 then Err(RequestFailed(listing.status, listing.body))
    else Ok(listing.photos)
  }

  /** The cache names of a listing's photos, one per photo, in response order. */
  function PhotoFiles(rover: string, camera: string, photos: seq<Photo>): seq<string> {
    seq(|photos|, k requires 0 <= k < |photos| => CacheFileName(rover, camera, photos[k].id))
  }

  /** Photos with distinct ids land in distinct cache files. */
  lemma PhotoFilesDistinct(rover: string, camera: string, photos: seq<Photo>)
    requires forall i, j :: 0 <= i < j < |photos| ==> photos[i].id != photos[j].id
    ensures forall i, j :: 0 <= i < j < |photos| ==> PhotoFiles(rover, camera, photos)[i] != PhotoFiles(rover, camera, photos)[j]
  {
    forall i, j | 0 <= i < j < |photos|
      ensures PhotoFiles(rover, camera, photos)[i] != PhotoFiles(rover, camera, photos)[j]
    {
      CacheFileNameDeterminesId(rover, camera, photos[i].id, photos[j].id);
    }
  }

  /** Some photo of the listing is saved under `file` and its download answers 200. */
  predicate Fetched(file: string, rover: string, camera: string, photos: seq<Photo>, fetch: string -> Download) {
    exists k :: 0 <= k < |photos| && CacheFileName(rover, camera, photos[k].id) == file
                && fetch(photos[k].imgSrc).status == 200
  }

  /** A listing fetches a file iff its first photo does or the rest of the listing does. */
  lemma FetchedCons(file: string, rover: string, camera: string, photos: seq<Photo>, fetch: string -> Download)
    requires |photos| > 0
    ensures Fetched(file, rover, camera, photos, fetch)
            <==> (CacheFileName(rover, camera, photos[0].id) == file && fetch(photos[0].imgSrc).status == 200)
                 || Fetched(file, rover, camera, photos[1..], fetch)
  {
    if Fetched(file, rover, camera, photos[1..], fetch) {
      var k :| 0 <= k < |photos[1..]| && CacheFileName(rover, camera, photos[1..][k].id) == file
               && fetch(photos[1..][k].imgSrc).status == 200;
      assert photos[k + 1] == photos[1..][k];
    }
    if Fetched(file, rover, camera, photos, fetch) {
      var k :| 0 <= k < |photos| && CacheFileName(rover, camera, photos[k].id) == file
               && fetch(photos[k].imgSrc).status == 200;
      if k > 0 {
        assert photos[1..][k - 1] == photos[k];
      }
    }
  }

  /** Some photo of the listing is saved under `file` by a 200 download of the given size. */
  predicate FetchedAs(file: string, size: Size, rover: string, camera: string, photos: seq<Photo>,
                      fetch: string -> Download)
  {
    exists k :: 0 <= k < |photos| && CacheFileName(rover, camera, photos[k].id) == file
                && fetch(photos[k].imgSrc).status == 200 && fetch(photos[k].imgSrc).size == size
  }

  /** The size-carrying counterpart of FetchedCons. */
  lemma FetchedAsCons(file: string, size: Size, rover: string, camera: string, photos: seq<Photo>,
                      fetch: string -> Download)
    requires |photos| > 0
    ensures FetchedAs(file, size, rover, camera, photos, fetch)
            <==> (CacheFileName(rover, camera, photos[0].id) == file && fetch(photos[0].imgSrc).status == 200
                  && fetch(photos[0].imgSrc).size == size)
                 || FetchedAs(file, size, rover, camera, photos[1..], fetch)
  {
    if FetchedAs(file, size, rover, camera, photos[1..], fetch) {
      var k :| 0 <= k < |photos[1..]| && CacheFileName(rover, camera, photos[1..][k].id) == file
               && fetch(photos[1..][k].imgSrc).status == 200 && fetch(photos[1..][k].imgSrc).size == size;
      assert photos[k + 1] == photos[1..][k];
    }
    if FetchedAs(file, size, rover, camera, photos, fetch) {
      var k :| 0 <= k < |photos| && CacheFileName(rover, camera, photos[k].id) == file
               && fetch(photos[k].imgSrc).status == 200 && fetch(photos[k].imgSrc).size == size;
      if k > 0 {
        assert photos[1..][k - 1] == photos[k];
      }
    }
  }

  /** The file names collected for a sol and the cache they leave behind. */
  datatype Batch = Batch(files: seq<string>, temp: TempDir)

  /**
   * The loop of process_sol: save_image for each photo in turn, threading the
   * cache. Every photo contributes its name, downloaded or not, and nothing
   * already cached is lost.
   */
  function SaveAll(photos: seq<Photo>, force: bool, rover: string, camera: string,
                   temp: TempDir, fetch: string -> Download): (r: Batch)
    ensures |r.files| == |photos|
    ensures forall k :: 0 <= k < |photos| ==> r.files[k] == CacheFileName(rover, camera, photos[k].id)
    ensures forall f :: Has(temp, f) ==> Has(r.temp, f)
    ensures |photos| == 0 ==> r.temp == temp
    decreases |photos|
  {
    if |photos| == 0 then Batch([], temp)
    else
      var saved := SaveImage(photos[0].imgSrc, photos[0].id, force, rover, camera, temp, fetch);
      var rest := SaveAll(photos[1..], force, rover, camera, saved.temp, fetch);
      var files := [saved.file] + rest.files;
      assert forall k :: 0 < k < |photos| ==> files[k] == rest.files[k - 1] && photos[k] == photos[1..][k - 1];
      Batch(files, rest.temp)
  }

  /**
   * Which files SaveAll leaves in the cache: a file is there afterwards iff it
   * was before or some photo saved under its name downloaded with status 200;
   * so only the listed names are added, and the directory is created only by
   * such a download.
   */
  lemma {:induction false} SaveAllCache(photos: seq<Photo>, force: bool, rover: string, camera: string,
                                        temp: TempDir, fetch: string -> Download)
    ensures var r := SaveAll(photos, force, rover, camera, temp, fetch);
            forall f :: Has(r.temp, f) <==> Has(temp, f) || Fetched(f, rover, camera, photos, fetch)
    ensures var r := SaveAll(photos, force, rover, camera, temp, fetch);
            forall f :: Has(r.temp, f) ==> Has(temp, f) || f in r.files
    ensures var r := SaveAll(photos, force, rover, camera, temp, fetch);
            r.temp.Present? <==> temp.Present? || exists f :: Has(r.temp, f)
    decreases |photos|
  {
    if |photos| > 0 {
      var saved := SaveImage(photos[0].imgSrc, photos[0].id, force, rover, camera, temp, fetch);
      SaveAllCache(photos[1..], force, rover, camera, saved.temp, fetch);
      forall f {
        FetchedCons(f, rover, camera, photos, fetch);
      }
    }
  }

  /**
   * What SaveAll leaves in each cached file: its old content, or what some
   * 200 download of a photo saved under that name carried. Without a forced
   * download, a file cached before is never downloaded again.
   */
  lemma {:induction false} SaveAllSizes(photos: seq<Photo>, force: bool, rover: string, camera: string,
                                        temp: TempDir, fetch: string -> Download)
    ensures var r := SaveAll(photos, force, rover, camera, temp, fetch);
            forall f :: Has(r.temp, f) ==>
              || (Has(temp, f) && Contents(r.temp)[f] == Contents(temp)[f])
              || FetchedAs(f, Contents(r.temp)[f], rover, camera, photos, fetch)
    ensures var r := SaveAll(photos, force, rover, camera, temp, fetch);
            !force ==> forall f :: Has(temp, f) ==> Has(r.temp, f) && Contents(r.temp)[f] == Contents(temp)[f]
    decreases |photos|
  {
    if |photos| > 0 {
      var saved := SaveImage(photos[0].imgSrc, photos[0].id, force, rover, camera, temp, fetch);
      SaveAllSizes(photos[1..], force, rover, camera, saved.temp, fetch);
      forall f, size | FetchedAs(f, size, rover, camera, photos[1..], fetch)
        ensures FetchedAs(f, size, rover, camera, photos, fetch)
      {
        FetchedAsCons(f, size, rover, camera, photos, fetch);
      }
      if fetch(photos[0].imgSrc).status == 200 {
        FetchedAsCons(saved.file, fetch(photos[0].imgSrc).size, rover, camera, photos, fetch);
      }
    }
  }

  /**
   * process_sol: fails before any request when no key can be found, fails when
   * the listing is not a 200, and otherwise yields exactly one cache name per
   * listed photo, in response order, whatever each download answered.
   */
  function ProcessSol(sol: int, rover: string, force: bool, camera: string, key: string,
                      env: map<string, string>, api: Query -> Listing, fetch: string -> Download,
                      temp: TempDir): (r: Result<Batch>)
    ensures ResolveKey(key, env).Err? ==> r == Err(MissingApiKey)
    ensures ResolveKey(key, env).Ok? ==>
              var listing := api(Query(rover, sol, camera, ResolveKey(key, env).value));
              && (r.Ok? <==> listing.status == 200)
              && (r.Err? ==> r.error == RequestFailed(listing.status, listing.body))
              && (r.Ok? ==> r.value.files == PhotoFiles(rover, camera, listing.photos))
              && (r.Ok? ==> forall f :: Has(r.value.temp, f)
                                        <==> Has(temp, f) || Fetched(f, rover, camera, listing.photos, fetch))
    ensures r.Ok? ==> forall f :: Has(temp, f) ==> Has(r.value.temp, f)
    ensures r.Ok? ==> forall f :: Has(r.value.temp, f) ==> Has(temp, f) || f in r.value.files
    ensures r.Ok? ==> (r.value.temp.Present? <==> temp.Present? || exists f :: Has(r.value.temp, f))
    ensures ResolveKey(key, env).Ok? && r.Ok? ==>
              var listing := api(Query(rover, sol, camera, ResolveKey(key, env).value));
              forall f :: Has(r.value.temp, f) ==>
                || (Has(temp, f) && Contents(r.value.temp)[f] == Contents(temp)[f])
                || FetchedAs(f, Contents(r.value.temp)[f], rover, camera, listing.photos, fetch)
    ensures r.Ok? && !force ==>
              forall f :: Has(temp, f) ==> Has(r.value.temp, f) && Contents(r.value.temp)[f] == Contents(temp)[f]
    ensures r.Ok? && r.value.files == [] ==> r.value.temp == temp
  {
    var photos :- FetchPhotos(sol, rover, camera, key, env, api);
    var batch := SaveAll(photos, force, rover, camera, temp, fetch);
    assert batch.files == PhotoFiles(rover, camera, photos);
    SaveAllCache(photos, force, rover, camera, temp, fetch);
    SaveAllSizes(photos, force, rover, camera, temp, fetch);
    Ok(batch)
  }
}

=== FILE: store.dfy ===
/**
 * The image cache of save_image: the temp working directory, which holds one
 * file per downloaded photo and is only created by the first successful download.
 */
module Store {
  import opened Naming
  import opened Frames

  /** The temp directory: absent, or present with the decoded size of each file in it. */
  datatype TempDir = Absent | Present(files: map<string, Size>)

  function Contents(d: TempDir): map<string, Size> {
    if d.Present? then d.files else map[]
  }

  /** `os.path.isfile("temp/" + file)` */
  predicate Has(d: TempDir, file: string) {
    d.Present? && file in d.files
  }

  /** The answer to GET image_url: its status and, on 200, the size of the JPEG it carries. */
  datatype Download = Download(status: int, size: Size)

  /** The file name save_image returns, the directory after the call, and whether it issued a GET. */
  datatype Saved = Saved(file: string, temp: TempDir, requested: bool)

  /**
   * save_image: returns the cache name of the photo whatever happens; downloads
   * unless the file is already cached and no forced download is asked for; stores
   * the file (creating the directory) only when the download answers 200.
   */
  function SaveImage(url: string, id: int, force: bool, rover: string, camera: string,
                     temp: TempDir, fetch: string -> Download): (r: Saved)
    ensures r.file == CacheFileName(rover, camera, id)
    ensures r.requested <==> force || !Has(temp, r.file)
    ensures Has(r.temp, r.file) <==> Has(temp, r.file) || (r.requested && fetch(url).status == 200)
    ensures r.requested && fetch(url).status == 200 ==> Contents(r.temp)[r.file] == fetch(url).size
    ensures !(r.requested && fetch(url).status == 200) ==> r.temp == temp
    ensures forall f :: f != r.file ==> (Has(r.temp, f) <==> Has(temp, f))
    ensures forall f :: f != r.file && Has(temp, f) ==> f in Contents(r.temp) && Contents(r.temp)[f] == Contents(temp)[f]
  {
    var file := CacheFileName(rover, camera, id);
    if Has(temp, file) && !force then
      Saved(file, temp, false)
    else
      var response := fetch(url);
      if response.status == 200 then
        Saved(file, Present(Contents(temp)[file := response.size]), true)
      else
        Saved(file, temp, true)
  }

  /**
   * Once a photo is in the cache, saving it again without forcing issues no
   * request and changes nothing: the same name comes back over the same directory.
   */
  lemma SaveImageIdempotent(url: string, id: int, force: bool, rover: string, camera: string,
                            temp: TempDir, fetch: string -> Download)
    requires Has(SaveImage(url, id, force, rover, camera, temp, fetch).temp, CacheFileName(rover, camera, id))
    ensures var first := SaveImage(url, id, force, rover, camera, temp, fetch);
            var second := SaveImage(url, id, false, rover, camera, first.temp, fetch);
            !second.requested && second.file == first.file && second.temp == first.temp
  {
  }

  /**
   * A download that fails for a photo not yet cached still yields its file
   * name, but leaves no such file behind.
   */
  lemma FailedDownloadLeavesNoFile(url: string, id: int, force: bool, rover: string, camera: string,
                                   temp: TempDir, fetch: string -> Download)
    requires !Has(temp, CacheFileName(rover, camera, id)) && fetch(url).status != 200
    ensures var r := SaveImage(url, id, force, rover, camera, temp, fetch);
            r.file == CacheFileName(rover, camera, id) && !Has(r.temp, r.file) && r.temp == temp
  {
  }
}

=== FILE: video.dfy ===
/**
 * make_video: open every collected file, keep the wide ones, resize them to
 * the truncated mean size as `_resized_` copies, and write those copies as
 * the frames of the video, in selection order.
 */
module Video {
  import opened Outcomes
  import opened Naming
  import opened Frames
  import opened Store

  /** What make_video produced: nothing (no image was wide enough), or a video. */
  datatype VideoOutcome =
    | NoImagesFound
    | Written(path: string, fps: string, frameSize: Size, frames: seq<ImageInfo>)

  /**
   * The Image.open calls of the selection loop: the size of every collected
   * file, or the failure for the first one missing from the temp directory.
   */
  function Probe(names: seq<string>, temp: TempDir): (r: Result<seq<ImageInfo>>)
    ensures r.Ok? <==> forall i :: 0 <= i < |names| ==> Has(temp, names[i])
    ensures r.Ok? ==> |r.value| == |names|
    ensures r.Ok? ==> forall k :: 0 <= k < |names| ==>
              names[k] in Contents(temp) && r.value[k] == ImageInfo(names[k], Contents(temp)[names[k]])
    ensures r.Err? ==> exists i :: 0 <= i < |names| && !Has(temp, names[i])
                                   && r.error == FileNotFound(TempPath(names[i]))
                                   && forall j :: 0 <= j < i ==> Has(temp, names[j])
  {
    if |names| == 0 then Ok([])
    else if !Has(temp, names[0]) then Err(FileNotFound(TempPath(names[0])))
    else
      var rest :- Probe(names[1..], temp);
      Ok([ImageInfo(names[0], Contents(temp)[names[0]])] + rest)
  }

  /** The `_resized_` copies of a list of files, in the same order. */
  function ResizedNames(files: seq<string>): seq<string> {
    seq(|files|, k requires 0 <= k < |files| => ResizedName(files[k]))
  }

  /**
   * The resize loop of make_video: each kept file gets a `_resized_` copy of
   * the given size; every other file of the directory keeps its entry.
   */
  method ResizeAll(files: seq<string>, dir: map<string, Size>, size: Size)
    returns (written: map<string, Size>)
    ensures forall f :: f in written <==> f in dir || f in ResizedNames(files)
    ensures forall f :: f in ResizedNames(files) ==> written[f] == size
    ensures forall f :: f in dir && f !in ResizedNames(files) ==> written[f] == dir[f]
  {
    var resized := ResizedNames(files);
    written := dir;
    for i := 0 to |files|
      invariant forall f :: f in written <==> f in dir || f in resized[..i]
      invariant forall f :: f in resized[..i] ==> written[f] == size
      invariant forall f :: f in dir && f !in resized[..i] ==> written[f] == dir[f]
    {
      assert resized[..i + 1] == resized[..i] + [resized[i]];
      written := written[ResizedName(files[i]) := size];
    }
    assert resized[..|files|] == resized;
  }

  /**
   * The writing loop of make_video: one frame per resized copy, read back from
   * the directory, in order.
   */
  method WriteFrames(resized: seq<string>, dir: map<string, Size>, size: Size)
    returns (frames: seq<ImageInfo>)
    requires forall f :: f in resized ==> f in dir && dir[f] == size
    ensures |frames| == |resized|
    ensures forall k :: 0 <= k < |resized| ==> frames[k] == ImageInfo(resized[k], size)
  {
    frames := [];
    for i := 0 to |resized|
      invariant |frames| == i
      invariant forall k :: 0 <= k < i ==> frames[k] == ImageInfo(resized[k], size)
    {
      frames := frames + [ImageInfo(resized[i], dir[resized[i]])];
    }
  }

  /**
   * make_video. It fails on the first collected file that is missing; it stops
   * with NoImagesFound, touching nothing, when no image is wide enough; and
   * otherwise every kept image is resized to the truncated mean width and height
   * of the kept images only, and the video gets one frame per kept image, in
   * selection order, each of the frame size. Only the `_resized_` copies are
   * written into the temp directory.
   */
  method MakeVideo(all: seq<string>, temp: TempDir, videoName: string, t: AspectRatio, fps: string)
    returns (r: Result<VideoOutcome>, temp': TempDir)
    ensures r.Err? <==> Probe(all, temp).Err?
    ensures r.Err? ==> r.error == Probe(all, temp).error && temp' == temp
    ensures r.Ok? ==> (r.value.NoImagesFound? <==> |Kept(Probe(all, temp).value, t)| == 0)
    ensures r.Ok? && r.value.NoImagesFound? ==> temp' == temp
    ensures r.Ok? ==> (temp'.Present? <==> temp.Present?)
    ensures r.Ok? && r.value.Written? ==>
              var kept := Kept(Probe(all, temp).value, t);
              var resized := ResizedNames(Files(kept));
              var size := r.value.frameSize;
              && |kept| > 0
              && r.value.path == VideoPath(videoName)
              && r.value.fps == fps
              && size == Size(TruncatedMean(Widths(kept)), TruncatedMean(Heights(kept)))
              && |r.value.frames| == |kept|
              && (forall k :: 0 <= k < |kept| ==> r.value.frames[k] == ImageInfo(resized[k], size))
              && (forall f :: f in resized ==> f in Contents(temp') && Contents(temp')[f] == size)
              && (forall f :: Has(temp', f) <==> Has(temp, f) || f in resized)
              && (forall f :: Has(temp, f) && f !in resized ==> Contents(temp')[f] == Contents(temp)[f])
  {
    var probed := Probe(all, temp);
    if probed.Err? {
      return Err(probed.error), temp;
    }
    var files, widths, heights := SelectFrames(probed.value, t);
    if files == [] {
      return Ok(NoImagesFound), temp;
    }
    assert Has(temp, all[0]);
    var size := Size(TruncatedMean(widths), TruncatedMean(heights));
    var written := ResizeAll(files, temp.files, size);
    temp' := Present(written);
    var resized := ResizedNames(files);
    // The frame size is read back from the first resized copy.
    assert resized[0] in resized;
    var frameSize := written[resized[0]];
    var frames := WriteFrames(resized, written, size);
    r := Ok(Written(VideoPath(videoName), fps, frameSize, frames));
  }
}
